=== FILE: README.md ===
# writeup.ai domain monitor — decision logic in Dafny

`monitor_writeup.py` is a script that runs once a day. It polls two web pages about the
domain `writeup.ai`: the DropCatch listing and the whois.net record. It reduces each page to a
status label and compares the labels with the snapshot the previous run saved in
`domain_status.json`. Then it mails a summary and saves the new snapshot.

This project models the decision logic of the script, without its I/O:

- `DropCatch` — `check_dropcatch_status`. A 200 reply is lower-cased and classified by keyword, first match wins, into `AVAILABLE_FOR_BACKORDER`, `NOT_AVAILABLE_YET`, `IN_AUCTION` or `UNKNOWN_STATUS`. Any other code gives `ERROR_<code>`. A raised exception gives `ERROR: <message>`.
- `Whois` — `check_whois_status`. It uses the same keyword scheme with five lifecycle labels. The result is a `{status, checked_at, source}` record or an `{error}` record.
- `ChangeDetector` — the change-detection block of `main`. `DetectChanges` is an imperative method: it appends change lines and raises a critical flag step by step. It is proved equal to the specification functions `Changes` and `Critical`, and the lemmas beside it prove what those mean. The module also holds the subject choice, the always-true notification guard and one whole `Run` of `main` without its I/O.
- `Notifier` — `send_simple_email` up to the SMTP session. It covers the configuration guard, the ASCII filter and the message text.
- `Text`, `Http`, `Optional` — the Python built-ins the script relies on, the outcome of `requests.get`, and `dict.get` with a default.

An HTTP request is modelled as its outcome, `Http.Reply`: either `Response(statusCode, text)` or `Raised(message)`. Clock readings, the SMTP outcome and the environment settings are parameters.

Quirks of the code that the model keeps:

- The notification guard `changes or True` always holds, so every run tries to send mail, changed or not (`ShouldNotify`). Whether the mail goes out still depends on the configuration and on the SMTP exchange (`Notifier.SendSimpleEmail`).
- A WHOIS change line can print `unknown -> unknown`. The comparison is on the optional status, while the printing uses a default. A previous run that saved no status followed by a page that matched no keyword gives this line.
- Two WHOIS failures in a row never produce a line, even when their messages differ.
- A failed WHOIS check prints as `unknown`, the same as the label of a page that matched no keyword. After a saved `unknown` record, a failure reads `WHOIS: unknown -> unknown` (`ChangeDetector.WhoisFailurePrintsUnknown`).

## Model

| member | source | states |
|---|---|---|
| `Text.Contains` | monitor_writeup.py:37-41 | the substring test `p in s`: the empty string occurs in every page, and a keyword longer than the page never occurs |
| `Text.ContainsOccurs` | monitor_writeup.py:37-41 | `p in s` holds exactly when `p` occurs in `s` at some offset, so a failed keyword test means the keyword occurs nowhere in the page |
| `Text.Lower` | monitor_writeup.py:36 | the ASCII lowering of `str.lower()`: it keeps the length, turns each capital letter into the same letter in lower case, and keeps every other character in its place, so no capital letter is left |
| `Text.LowerIdempotent` | monitor_writeup.py:36 | lowering text that is already lowered changes nothing |
| `Text.ContainsLower` | monitor_writeup.py:36-37 | an occurrence of a word survives lowering of both page and word, so keyword tests on the lowered page ignore letter case |
| `Text.NatToString` | monitor_writeup.py:46 | `str(code)` is a non-empty string of decimal digits with no leading zero |
| `Text.DigitsValueOfNatToString` | monitor_writeup.py:46 | reading the printed digits back gives the status code: the printed form loses nothing |
| `Text.NatToStringInjective` | monitor_writeup.py:46 | two different codes never print the same |
| `DropCatch.ClassifyPage` | monitor_writeup.py:36-44 | a fetched page always gets one of the four page labels |
| `DropCatch.CheckDropCatch` | monitor_writeup.py:25-49 | the result is a page label exactly when the reply is a 200; otherwise it starts with `ERROR`: `ERROR_` + code for another code, `ERROR: ` + message for an exception |
| `DropCatch.PlaceABackorderMentionsBackorder` | monitor_writeup.py:37 | a page containing "place a backorder" contains "backorder", so the first conjunct of the backorder rule is redundant |
| `DropCatch.ClassifyPagePrecedence` | monitor_writeup.py:37-44 | each label holds exactly when its rule matches and no earlier rule did; `AVAILABLE_FOR_BACKORDER` holds exactly when "place a backorder" occurs, whatever else the page says |
| `DropCatch.BackorderAnyCase` | monitor_writeup.py:35-38 | a 200 page showing "place a backorder" in any letter case is `AVAILABLE_FOR_BACKORDER` |
| `DropCatch.CheckIgnoresCase` | monitor_writeup.py:36 | lowering the page text before the check does not change the result |
| `DropCatch.ErrorStatusIdentifiesFailure` | monitor_writeup.py:45-49 | two failed checks with the same status string failed the same way: both raised with the same message, or both answered with the same code |
| `Whois.WhoisResult.Status` | monitor_writeup.py:162-164 | `result.get('status')` is present exactly for a record and is then its status; an error dict has none |
| `Whois.ClassifyPage` | monitor_writeup.py:62-73 | a fetched page always gets one of the five lifecycle labels |
| `Whois.CheckWhois` | monitor_writeup.py:51-84 | a record with a status exists exactly for a 200 reply, and its source is `whois.net` and its time is the clock reading; another code gives only the error `HTTP ` + code; an exception gives only its message |
| `Whois.ClassifyPagePrecedence` | monitor_writeup.py:64-73 | each label holds exactly when its rule matches and no earlier rule did, in the order pendingDelete > redemptionPeriod > expired > active > unknown |
| `Whois.PendingDeleteAnyCase` | monitor_writeup.py:61-65 | a 200 page showing "pendingdelete" or "pending delete" in any letter case, the EPP spelling "pendingDelete" among them, has status `pendingDelete` whatever else it says |
| `ChangeDetector.Current` | monitor_writeup.py:147-151 | the saved snapshot carries the run's timestamp, the new DropCatch status and the whole new WHOIS result (status or error, check time, source) |
| `ChangeDetector.PreviousWhoisStatus` | monitor_writeup.py:162-163 | the previous WHOIS status is absent when the previous snapshot has no WHOIS entry |
| `ChangeDetector.DropCatchLines` | monitor_writeup.py:157-158 | there is at most one DropCatch line, and there is one exactly when the previous value differs from the new one; it reads "DropCatch: <old> -> <new>", with "unknown" for a missing previous value |
| `ChangeDetector.WhoisLines` | monitor_writeup.py:162-165 | there is at most one WHOIS line, and there is one exactly when the optional previous status differs from the optional new one; it reads "WHOIS: <old> -> <new>", with "unknown" printed for a missing status on either side |
| `ChangeDetector.Changes` | monitor_writeup.py:154-165 | the change list holds at most two lines, and two only when both the DropCatch status and the WHOIS status changed |
| `ChangeDetector.Critical` | monitor_writeup.py:155-167 | the alert is urgent only when a side changed, and only when the new DropCatch value is `AVAILABLE_FOR_BACKORDER` or the new WHOIS result is a record with status `pendingDelete` or `expired`; `CriticalIffCriticalLine` ties each case to its own change |
| `ChangeDetector.DetectChanges` | monitor_writeup.py:154-167 | the lines appended step by step are the DropCatch line and then the WHOIS line; the flag equals `Critical`; a raised flag always comes with at least one line |
| `ChangeDetector.NoChangeIffSameStatuses` | monitor_writeup.py:157-167 | no lines exactly when neither status changed, and then the flag stays false |
| `ChangeDetector.CriticalIffCriticalLine` | monitor_writeup.py:157-167 | the flag is raised exactly when a DropCatch line is reported and the new value is `AVAILABLE_FOR_BACKORDER`, or a WHOIS line is reported and the new result is a record with status `pendingDelete` or `expired`; a failed WHOIS check never raises it |
| `ChangeDetector.ChangeCount` | monitor_writeup.py:154-167 | the number of lines is the number of sides whose status changed |
| `ChangeDetector.SecondRunQuiet` | monitor_writeup.py:141-167 | a run against the snapshot an earlier run saved from the same replies reports no change and no alert, whatever the clock readings |
| `ChangeDetector.BackorderOpensUrgently` | monitor_writeup.py:157-160 | going from `NOT_AVAILABLE_YET` to `AVAILABLE_FOR_BACKORDER`, whatever the timestamp and the previous and new WHOIS entries, makes the first line "DropCatch: NOT_AVAILABLE_YET -> AVAILABLE_FOR_BACKORDER", and the alert is urgent |
| `ChangeDetector.BackorderOpensWithOneLine` | monitor_writeup.py:157-167 | when the WHOIS status did not also change, that DropCatch line is the only line |
| `ChangeDetector.WhoisFailuresInvisible` | monitor_writeup.py:162-165 | when the previous and the new WHOIS result are both errors, only a DropCatch change can produce a line |
| `ChangeDetector.FirstUnknownWhoisReported` | monitor_writeup.py:162-165 | on a first run whose WHOIS page matched no keyword, the WHOIS line reads "WHOIS: unknown -> unknown" |
| `ChangeDetector.WhoisFailurePrintsUnknown` | monitor_writeup.py:162-165 | after a saved status, a failed WHOIS check gives the last line "WHOIS: <old> -> unknown"; after a saved `unknown` it reads "WHOIS: unknown -> unknown" |
| `ChangeDetector.Subject` | monitor_writeup.py:171-172 | the subject starts with "URGENT: " exactly when the run is critical, and with "Update: " otherwise |
| `ChangeDetector.ShouldNotify` | monitor_writeup.py:170 | the guard holds for every change list, including the empty one |
| `ChangeDetector.Run` | monitor_writeup.py:141-198 | the snapshot to save holds both check results whatever failed; the change list and flag are those of the detector; the decision to notify always holds, and the subject starts with "URGENT" exactly when critical |
| `Notifier.IsConfigured` | monitor_writeup.py:89 | `all([...])` over the three settings: the configuration is complete exactly when every one of sender, password and recipient is set and non-empty |
| `Notifier.AsciiOnly` | monitor_writeup.py:94-95 | the filtered text is all ASCII and no longer than the input |
| `Notifier.AsciiOnlyAppend` | monitor_writeup.py:94-95 | filtering a concatenation filters each part, so the characters kept keep their order |
| `Notifier.AsciiOnlyChar` | monitor_writeup.py:94-95 | one character is kept exactly when its code is below 128 |
| `Notifier.AsciiOnlyKeepsAscii` | monitor_writeup.py:94-95 | ASCII text passes through unchanged |
| `Notifier.AsciiOnlyIdempotent` | monitor_writeup.py:94-95 | filtering twice is the same as filtering once |
| `Notifier.ComposeMessage` | monitor_writeup.py:89-102 | a message is built exactly when sender, password and recipient are all set and non-empty; with ASCII addresses the whole message is ASCII; its text is fixed by `ComposeKeepsAsciiText` and `ComposeFiltersFirst` |
| `Notifier.ComposeKeepsAsciiText` | monitor_writeup.py:94-102 | with a complete configuration and an ASCII subject and body, the message is "From: <sender>", "To: <recipient>", "Subject: <subject>", a blank line and the body, with the subject and the body kept verbatim |
| `Notifier.ComposeFiltersFirst` | monitor_writeup.py:94-102 | the message depends on the subject and body only through their ASCII characters: filtering them first gives the same message |
| `Notifier.SendSimpleEmail` | monitor_writeup.py:86-121 | the result is true exactly when the configuration is complete and the SMTP exchange succeeded; an incomplete configuration gives false whatever the relay would do |

## Left out

- The HTTP GETs, with their URL, User-Agent header and 10-second timeout (monitor_writeup.py:28-33, 54-59). This is network I/O. Each checker takes the outcome of the request as an `Http.Reply` instead.
- The SMTP connect, STARTTLS, login, sendmail and quit steps (monitor_writeup.py:105-114). They are network I/O. Whether they completed without an exception is the parameter `delivered` of `Notifier.SendSimpleEmail`.
- Loading and saving `domain_status.json` (monitor_writeup.py:123-134). This is file I/O and JSON. A missing file is `ChangeDetector.NoPrevious`. Malformed JSON, which makes the script crash, is not modelled. Neither are JSON values of other types under the `dropcatch` or `whois` keys.
- `datetime.now()` (monitor_writeup.py:77, 138, 148, 175). Each clock reading is a string parameter. Timestamps take no part in change detection.
- Reading the environment (monitor_writeup.py:20-22). The three settings are the fields of `Notifier.EmailConfig`.
- All `print` output.
- The text of the email body (monitor_writeup.py:174-191). `ChangeDetector.Run` stops at the decision to notify and the subject; it does not call `Notifier.SendSimpleEmail`.
- `DropCatch.CheckDropCatch`: `str.lower()` is modelled on ASCII letters only. Python also lowers other letters, a few of them into ASCII (KELVIN SIGN becomes `k`). A page that spells a keyword with such letters matches in Python but not in the model.
- `Whois.CheckWhois`: the same ASCII-only lowering applies.
- `Http.Reply`: status codes are natural numbers; `str()` of a negative code is not modelled.
- `Text.Lower`: only the ASCII capitals `A`-`Z` are lowered, one character for one. Python's `str.lower()` also lowers other letters, and some of them into more than one code point (`İ`, U+0130, becomes two), so it does not always keep the length.

=== FILE: change_detector.dfy ===
/**
 * The decision part of `main`: compare the previous snapshot with the fresh
 * checks, list the changes, raise the critical flag, pick the subject, and
 * build the snapshot to be saved.
 */
module ChangeDetector {
  import opened Optional
  import opened Text
  import opened Http
  import DropCatch
  import Whois

  const Domain := "writeup.ai"

  /** The default printed for a status that is missing. */
  const Missing := "unknown"

  /**
   * The contents of `domain_status.json` as a dict: each key may be missing.
   * A file an earlier run saved holds that run's `Current` snapshot.
   */
  datatype Snapshot = Snapshot(
    timestamp: Option<string>,
    dropcatch: Option<string>,
    whois: Option<Whois.WhoisResult>)

  /** `load_previous_status()` when the file does not exist: the empty dict. */
  const NoPrevious := Snapshot(None, None, None)

  /** The record `main` saves at the end of a run; `timestamp` is the clock reading. */
  function Current(timestamp: string, dropcatch: string, whois: Whois.WhoisResult): (s: Snapshot)
    ensures s.timestamp == Some(timestamp)
    ensures s.dropcatch == Some(dropcatch)
    ensures s.whois == Some(whois)
  {
    Snapshot(Some(timestamp), Some(dropcatch), Some(whois))
  }

  /** `previous.get('whois', {}).get('status')`. */
  function PreviousWhoisStatus(previous: Snapshot): (r: Option<string>)
    ensures previous.whois.None? ==> r.None?
  {
    match previous.whois
    case None => None
    case Some(w) => w.Status()
  }

  /** The DropCatch change line, when the status moved; a missing previous value prints "unknown". */
  function DropCatchLines(before: Option<string>, after: string): (lines: seq<string>)
    ensures |lines| <= 1
    ensures lines != [] <==> before != Some(after)
    ensures before.None? ==> lines == ["DropCatch: unknown -> " + after]
    ensures before.Some? && lines != [] ==> lines == ["DropCatch: " + before.value + " -> " + after]
  {
    if before != Some(after) then
      UnknownDropCatchLine(after);
      ["DropCatch: " + before.GetOr(Missing) + " -> " + after]
    else []
  }

  /** The DropCatch line for a missing previous value, spelled out. */
  lemma UnknownDropCatchLine(after: string)
    ensures "DropCatch: " + Missing + " -> " + after == "DropCatch: unknown -> " + after
  {
    var head := "DropCatch: " + Missing + " -> ";
    var expected := "DropCatch: unknown -> ";
    assert |head| == |expected|;
    forall i | 0 <= i < |expected| ensures head[i] == expected[i] {}
    assert head == expected;
  }

  /** The WHOIS change line, when the optional status moved; both ends print "unknown" when missing. */
  function WhoisLines(before: Option<string>, after: Option<string>): (lines: seq<string>)
    ensures |lines| <= 1
    ensures lines != [] <==> before != after
    ensures before != after ==>
      lines == ["WHOIS: " + (if before.Some? then before.value else "unknown") + " -> " +
                (if after.Some? then after.value else "unknown")]
  {
    assert Missing == "unknown";
    if before != after then ["WHOIS: " + before.GetOr(Missing) + " -> " + after.GetOr(Missing)] else []
  }

  /**
   * The change list `main` reports: the DropCatch line first, then the WHOIS
   * line, so never more than two lines, and two only when both sides moved.
   */
  function Changes(previous: Snapshot, dropcatch: string, whois: Whois.WhoisResult): (c: seq<string>)
    ensures |c| <= 2
    ensures |c| == 2 ==> previous.dropcatch != Some(dropcatch) && PreviousWhoisStatus(previous) != whois.Status()
  {
    DropCatchLines(previous.dropcatch, dropcatch) + WhoisLines(PreviousWhoisStatus(previous), whois.Status())
  }

  /** A WHOIS status that makes a change urgent. */
  predicate IsCriticalWhois(status: string) {
    status == Whois.PendingDelete || status == Whois.Expired
  }

  /**
   * Whether the run's alert is urgent: only a side that moved can raise it,
   * and only DropCatch turning to AVAILABLE_FOR_BACKORDER or a WHOIS record
   * whose status is pendingDelete or expired.
   */
  predicate Critical(previous: Snapshot, dropcatch: string, whois: Whois.WhoisResult): (b: bool)
    ensures b ==> previous.dropcatch != Some(dropcatch) || PreviousWhoisStatus(previous) != whois.Status()
    ensures b ==> dropcatch == DropCatch.AvailableForBackorder || (whois.Record? && IsCriticalWhois(whois.status))
  {
    || (previous.dropcatch != Some(dropcatch) && dropcatch == DropCatch.AvailableForBackorder)
    || (PreviousWhoisStatus(previous) != whois.Status() && IsCriticalWhois(whois.Status().GetOr(Missing)))
  }

  /** The change-detection block of `main`, step by step: append a line, maybe raise the flag. */
  method DetectChanges(previous: Snapshot, dropcatch: string, whois: Whois.WhoisResult)
    returns (changes: seq<string>, critical: bool)
    ensures changes == Changes(previous, dropcatch, whois)
    ensures critical == Critical(previous, dropcatch, whois)
    ensures critical ==> changes != []
  {
    changes := [];
    critical := false;

    if previous.dropcatch != Some(dropcatch) {
      changes := changes + ["DropCatch: " + previous.dropcatch.GetOr(Missing) + " -> " + dropcatch];
      if dropcatch == DropCatch.AvailableForBackorder {
        critical := true;
      }
    }

    if PreviousWhoisStatus(previous) != whois.Status() {
      var oldStatus := PreviousWhoisStatus(previous).GetOr(Missing);
      var newStatus := whois.Status().GetOr(Missing);
      changes := changes + ["WHOIS: " + oldStatus + " -> " + newStatus];
      if newStatus == Whois.PendingDelete || newStatus == Whois.Expired {
        critical := true;
      }
    }
  }

  /** No lines exactly when neither status moved; and then the alert is never urgent. */
  lemma NoChangeIffSameStatuses(previous: Snapshot, dropcatch: string, whois: Whois.WhoisResult)
    ensures Changes(previous, dropcatch, whois) == [] <==>
      previous.dropcatch == Some(dropcatch) && PreviousWhoisStatus(previous) == whois.Status()
    ensures Changes(previous, dropcatch, whois) == [] ==> !Critical(previous, dropcatch, whois)
  {
  }

  /**
   * The alert is urgent exactly when a reported line shows DropCatch turning
   * to AVAILABLE_FOR_BACKORDER, or a reported line shows a WHOIS record whose
   * status is pendingDelete or expired. A failed WHOIS check never raises it.
   */
  lemma CriticalIffCriticalLine(previous: Snapshot, dropcatch: string, whois: Whois.WhoisResult)
    ensures Critical(previous, dropcatch, whois) <==>
      || (DropCatchLines(previous.dropcatch, dropcatch) != [] && dropcatch == DropCatch.AvailableForBackorder)
      || (WhoisLines(PreviousWhoisStatus(previous), whois.Status()) != [] &&
          whois.Record? && IsCriticalWhois(whois.status))
    ensures whois.Failure? ==>
      (Critical(previous, dropcatch, whois) <==>
        previous.dropcatch != Some(dropcatch) && dropcatch == DropCatch.AvailableForBackorder)
  {
    if whois.Failure? {
      assert !IsCriticalWhois(Missing);
    }
  }

  /** The number of lines counts the sides that moved. */
  lemma ChangeCount(previous: Snapshot, dropcatch: string, whois: Whois.WhoisResult)
    ensures |Changes(previous, dropcatch, whois)| ==
      (if previous.dropcatch != Some(dropcatch) then 1 else 0) +
      (if PreviousWhoisStatus(previous) != whois.Status() then 1 else 0)
  {
  }

  /**
   * A run repeated against unchanged pages reports nothing: whatever the
   * clock says, the second run sees the statuses the first one saved.
   */
  lemma SecondRunQuiet(dropcatchReply: Reply, whoisReply: Reply, savedAt: string, firstCheck: string, secondCheck: string)
    ensures
      var saved := Current(savedAt, DropCatch.CheckDropCatch(dropcatchReply), Whois.CheckWhois(whoisReply, firstCheck));
      var again := Whois.CheckWhois(whoisReply, secondCheck);
      Changes(saved, DropCatch.CheckDropCatch(dropcatchReply), again) == [] &&
      !Critical(saved, DropCatch.CheckDropCatch(dropcatchReply), again)
  {
    var saved := Current(savedAt, DropCatch.CheckDropCatch(dropcatchReply), Whois.CheckWhois(whoisReply, firstCheck));
    var again := Whois.CheckWhois(whoisReply, secondCheck);
    assert PreviousWhoisStatus(saved) == again.Status();
    NoChangeIffSameStatuses(saved, DropCatch.CheckDropCatch(dropcatchReply), again);
  }

  /**
   * From NOT_AVAILABLE_YET to AVAILABLE_FOR_BACKORDER, whatever the timestamp
   * and the WHOIS side: the first line reports the move and the alert is urgent.
   */
  lemma BackorderOpensUrgently(timestamp: Option<string>, previousWhois: Option<Whois.WhoisResult>, whois: Whois.WhoisResult)
    ensures
      var previous := Snapshot(timestamp, Some(DropCatch.NotAvailableYet), previousWhois);
      var changes := Changes(previous, DropCatch.AvailableForBackorder, whois);
      |changes| >= 1 &&
      changes[0] == "DropCatch: NOT_AVAILABLE_YET -> AVAILABLE_FOR_BACKORDER" &&
      Critical(previous, DropCatch.AvailableForBackorder, whois)
  {
    var line := "DropCatch: " + DropCatch.NotAvailableYet + " -> " + DropCatch.AvailableForBackorder;
    var expected := "DropCatch: NOT_AVAILABLE_YET -> AVAILABLE_FOR_BACKORDER";
    assert |line| == |expected|;
    forall i | 0 <= i < |expected| ensures line[i] == expected[i] {}
    assert line == expected;
    var previous := Snapshot(timestamp, Some(DropCatch.NotAvailableYet), previousWhois);
    assert DropCatchLines(previous.dropcatch, DropCatch.AvailableForBackorder) == [line];
    var changes := Changes(previous, DropCatch.AvailableForBackorder, whois);
    assert changes == [line] + WhoisLines(PreviousWhoisStatus(previous), whois.Status());
    assert changes[0] == line;
  }

  /** When the WHOIS status did not move as well, that line is the only one. */
  lemma BackorderOpensWithOneLine(timestamp: Option<string>, previousWhois: Option<Whois.WhoisResult>, whois: Whois.WhoisResult)
    requires PreviousWhoisStatus(Snapshot(timestamp, Some(DropCatch.NotAvailableYet), previousWhois)) == whois.Status()
    ensures
      var previous := Snapshot(timestamp, Some(DropCatch.NotAvailableYet), previousWhois);
      Changes(previous, DropCatch.AvailableForBackorder, whois) ==
        ["DropCatch: NOT_AVAILABLE_YET -> AVAILABLE_FOR_BACKORDER"]
  {
    BackorderOpensUrgently(timestamp, previousWhois, whois);
  }

  /** Two WHOIS failures in a row are never reported, whatever their messages. */
  lemma WhoisFailuresInvisible(previous: Snapshot, dropcatch: string, oldError: string, newError: string)
    requires previous.whois == Some(Whois.Failure(oldError))
    ensures |Changes(previous, dropcatch, Whois.Failure(newError))| ==
      if previous.dropcatch == Some(dropcatch) then 0 else 1
  {
  }

  /**
   * Both ends of a WHOIS line may print "unknown": a first run whose page
   * matched no keyword reports "WHOIS: unknown -> unknown".
   */
  lemma FirstUnknownWhoisReported(dropcatch: string, checkedAt: string)
    ensures
      var changes := Changes(NoPrevious, dropcatch, Whois.Record(Whois.Unknown, checkedAt, Whois.Source));
      |changes| == 2 && changes[1] == "WHOIS: unknown -> unknown"
  {
    var line := "WHOIS: " + Missing + " -> " + Whois.Unknown;
    var expected := "WHOIS: unknown -> unknown";
    assert |line| == |expected|;
    forall i | 0 <= i < |expected| ensures line[i] == expected[i] {}
    assert line == expected;
    assert WhoisLines(None, Some(Whois.Unknown)) == [line];
  }

  /**
   * A failed WHOIS check prints as "unknown", the same as the label of a page
   * that matched no keyword: after a saved "unknown" record the line reads
   * "WHOIS: unknown -> unknown".
   */
  lemma WhoisFailurePrintsUnknown(previous: Snapshot, dropcatch: string, oldStatus: string, error: string)
    requires PreviousWhoisStatus(previous) == Some(oldStatus)
    ensures
      var changes := Changes(previous, dropcatch, Whois.Failure(error));
      |changes| >= 1 && changes[|changes| - 1] == "WHOIS: " + oldStatus + " -> unknown"
    ensures
      var changes := Changes(previous, dropcatch, Whois.Failure(error));
      oldStatus == Whois.Unknown ==> changes[|changes| - 1] == "WHOIS: unknown -> unknown"
  {
    var line := "WHOIS: " + oldStatus + " -> unknown";
    var tail, spelled := " -> " + "unknown", " -> unknown";
    assert |tail| == |spelled|;
    forall i | 0 <= i < |spelled| ensures tail[i] == spelled[i] {}
    assert "WHOIS: " + oldStatus + " -> " + "unknown" == ("WHOIS: " + oldStatus) + tail == line;
    assert WhoisLines(Some(oldStatus), None) == ["WHOIS: " + oldStatus + " -> " + "unknown"];
    if oldStatus == Whois.Unknown {
      var expected := "WHOIS: unknown -> unknown";
      assert |line| == |expected|;
      forall i | 0 <= i < |expected| ensures line[i] == expected[i] {}
      assert line == expected;
    }
  }

  /** The subject line: "URGENT" exactly for a critical run, "Update" otherwise. */
  function Subject(critical: bool): (s: string)
    ensures StartsWith(s, "URGENT: ") <==> critical
    ensures StartsWith(s, "Update: ") <==> !critical
  {
    var s := (if critical then "URGENT" else "Update") + ": " + Domain + " Status Change!";
    assert s[1] == (if critical then 'R' else 'p');
    assert s[..8] == (if critical then "URGENT: " else "Update: ");
    s
  }

  /** The notification guard `changes or True`: it holds whatever the changes. */
  predicate ShouldNotify(changes: seq<string>): (b: bool)
    ensures b
  {
    changes != [] || true
  }

  /**
   * One run of `main` without its I/O: the snapshot to save, the change list,
   * the flag, whether to notify and with which subject. Every failure of a
   * check is data in the snapshot, so the run always reaches the save.
   */
  method Run(previous: Snapshot, dropcatchReply: Reply, whoisReply: Reply, timestamp: string, whoisCheckedAt: string)
    returns (current: Snapshot, changes: seq<string>, critical: bool, notify: bool, subject: string)
    ensures current == Current(timestamp, DropCatch.CheckDropCatch(dropcatchReply), Whois.CheckWhois(whoisReply, whoisCheckedAt))
    ensures changes == Changes(previous, current.dropcatch.value, current.whois.value)
    ensures critical == Critical(previous, current.dropcatch.value, current.whois.value)
    ensures notify
    ensures StartsWith(subject, "URGENT: ") <==> critical
  {
    var dropcatch := DropCatch.CheckDropCatch(dropcatchReply);
    var whois := Whois.CheckWhois(whoisReply, whoisCheckedAt);
    current := Current(timestamp, dropcatch, whois);
    changes, critical := DetectChanges(previous, dropcatch, whois);
    notify := ShouldNotify(changes);
    subject := Subject(critical);
  }
}

=== FILE: dropcatch.dfy ===
/** `check_dropcatch_status`: the DropCatch listing page reduced to one status label. */
module DropCatch {
  import opened Text
  import opened Http

  const AvailableForBackorder := "AVAILABLE_FOR_BACKORDER"
  const NotAvailableYet := "NOT_AVAILABLE_YET"
  const InAuction := "IN_AUCTION"
  const UnknownStatus := "UNKNOWN_STATUS"

  /** The four labels a page that was fetched can be given. */
  predicate IsPageLabel(r: string) {
    r == AvailableForBackorder || r == NotAvailableYet || r == InAuction || r == UnknownStatus
  }

  /** The keyword rules, first match wins; `content` is the already lowered page. */
  function ClassifyPage(content: string): (r: string)
    ensures IsPageLabel(r)
  {
    if Contains(content, "backorder") && Contains(content, "place a backorder") then
      AvailableForBackorder
    else if Contains(content, "no results") || Contains(content, "not found") then
      NotAvailableYet
    else if Contains(content, "auction") then
      InAuction
    else
      UnknownStatus
  }

  /** The whole checker: it never fails, every outcome becomes a string. */
  function CheckDropCatch(reply: Reply): (r: string)
    ensures IsPageLabel(r) <==> IsOk(reply)
    ensures !IsOk(reply) ==> StartsWith(r, "ERROR")
    ensures reply.Response? && reply.statusCode != 200 ==> r == "ERROR_" + NatToString(reply.statusCode)
    ensures reply.Raised? ==> r == "ERROR: " + reply.message
  {
    match reply
    case Response(code, text) =>
      if code == 200 then ClassifyPage(Lower(text))
      else
        var r := "ERROR_" + NatToString(code);
        assert r[0] == 'E';
        r
    case Raised(message) =>
      var r := "ERROR: " + message;
      assert r[0] == 'E';
      r
  }

  /** The first half of the backorder rule is implied by the second. */
  lemma PlaceABackorderMentionsBackorder(content: string)
    requires Contains(content, "place a backorder")
    ensures Contains(content, "backorder")
  {
    assert "place a backorder"[8..] == "backorder";
    ContainsAt("place a backorder", "backorder", 8);
    ContainsTransitive(content, "place a backorder", "backorder");
  }

  /**
   * Each label, exactly when it is given: the backorder rule fires on
   * "place a backorder" alone and beats every other keyword; each later rule
   * fires only when no earlier one did.
   */
  lemma ClassifyPagePrecedence(content: string)
    ensures ClassifyPage(content) == AvailableForBackorder <==> Contains(content, "place a backorder")
    ensures ClassifyPage(content) == NotAvailableYet <==>
      !Contains(content, "place a backorder") &&
      (Contains(content, "no results") || Contains(content, "not found"))
    ensures ClassifyPage(content) == InAuction <==>
      !Contains(content, "place a backorder") &&
      !Contains(content, "no results") && !Contains(content, "not found") &&
      Contains(content, "auction")
    ensures ClassifyPage(content) == UnknownStatus <==>
      !Contains(content, "place a backorder") &&
      !Contains(content, "no results") && !Contains(content, "not found") &&
      !Contains(content, "auction")
  {
    if Contains(content, "place a backorder") {
      PlaceABackorderMentionsBackorder(content);
    }
  }

  /** A page showing "Place A Backorder" in any letter case is available for backorder. */
  lemma BackorderAnyCase(text: string, shown: string)
    requires Contains(text, shown) && Lower(shown) == "place a backorder"
    ensures CheckDropCatch(Response(200, text)) == AvailableForBackorder
  {
    ContainsLower(text, shown);
    ClassifyPagePrecedence(Lower(text));
  }

  /** Lowering the page first changes nothing: the check ignores letter case. */
  lemma CheckIgnoresCase(code: nat, text: string)
    ensures CheckDropCatch(Response(code, Lower(text))) == CheckDropCatch(Response(code, text))
  {
    LowerIdempotent(text);
  }

  /**
   * An error status names its cause: two failed checks that report the same
   * string failed the same way, with the same code or the same message.
   */
  lemma ErrorStatusIdentifiesFailure(a: Reply, b: Reply)
    requires !IsOk(a) && !IsOk(b)
    requires CheckDropCatch(a) == CheckDropCatch(b)
    ensures a.Raised? == b.Raised?
    ensures a.Raised? ==> a.message == b.message
    ensures a.Response? ==> a.statusCode == b.statusCode
  {
    var r := CheckDropCatch(a);
    if a.Response? && b.Response? {
      assert r[6..] == NatToString(a.statusCode);
      assert r[6..] == NatToString(b.statusCode);
      NatToStringInjective(a.statusCode, b.statusCode);
    } else if a.Raised? && b.Raised? {
      assert r[7..] == a.message && r[7..] == b.message;
    } else {
      var (code, message) := if a.Response? then (a.statusCode, b.message) else (b.statusCode, a.message);
      ErrorFormsDiffer(code, message);
      assert false;
    }
  }

  /** "ERROR_" and "ERROR: " part at their sixth character. */
  lemma ErrorFormsDiffer(code: nat, message: string)
    ensures "ERROR_" + NatToString(code) != "ERROR: " + message
  {
    assert ("ERROR_" + NatToString(code))[5] == '_';
    assert ("ERROR: " + message)[5] == ':';
  }
}

=== FILE: http.dfy ===
/**
 * What one `requests.get` call can come back with. The request itself (URL,
 * User-Agent header, 10-second timeout) is network I/O and is not modelled;
 * a checker receives its outcome as input.
 */
module Http {

  datatype Reply =
    | Response(statusCode: nat, text: string)  // the server answered
    | Raised(message: string)                  // the call raised; `str(e)`

  /** The only outcome the checkers classify by page content. */
  predicate IsOk(reply: Reply) {
    reply.Response? && reply.statusCode == 200
  }
}

=== FILE: notifier.dfy ===
/**
 * `send_simple_email` without the SMTP session: the configuration guard, the
 * ASCII filter applied to subject and body, and the message text handed to
 * the relay.
 */
module Notifier {
  import opened Optional

  /** The three settings read from the environment; each may be unset. */
  datatype EmailConfig = EmailConfig(
    senderEmail: Option<string>,
    senderPassword: Option<string>,
    recipient: Option<string>)

  /** Python truthiness of an optional setting: set and not empty. */
  predicate IsSet(v: Option<string>) {
    v.Some? && v.value != ""
  }

  /** `all([sender_email, sender_password, recipient])`: every one of the three is set. */
  predicate IsConfigured(config: EmailConfig): (b: bool)
    ensures b <==> forall v | v in [config.senderEmail, config.senderPassword, config.recipient] :: IsSet(v)
  {
    IsSet(config.senderEmail) && IsSet(config.senderPassword) && IsSet(config.recipient)
  }

  predicate IsAsciiChar(c: char) {
    c as int < 128
  }

  predicate IsAscii(s: string) {
    forall i :: 0 <= i < |s| ==> IsAsciiChar(s[i])
  }

  /** `s.encode('ascii', 'ignore').decode('ascii')`: every non-ASCII character is dropped. */
  function AsciiOnly(s: string): (r: string)
    ensures IsAscii(r)
    ensures |r| <= |s|
    decreases |s|
  {
    if s == [] then []
    else (if IsAsciiChar(s[0]) then [s[0]] else []) + AsciiOnly(s[1..])
  }

  /**
   * Filtering a concatenation filters each part: together with the one-character
   * case this says the result is exactly the ASCII characters, in their order.
   */
  lemma {:induction false} AsciiOnlyAppend(a: string, b: string)
    ensures AsciiOnly(a + b) == AsciiOnly(a) + AsciiOnly(b)
    decreases |a|
  {
    if a == [] {
      assert a + b == b;
    } else {
      var head := if IsAsciiChar(a[0]) then [a[0]] else [];
      assert (a + b)[0] == a[0];
      assert (a + b)[1..] == a[1..] + b;
      assert AsciiOnly(a + b) == head + AsciiOnly(a[1..] + b);
      AsciiOnlyAppend(a[1..], b);
      assert AsciiOnly(a) == head + AsciiOnly(a[1..]);
    }
  }

  /** One character is kept exactly when it is ASCII. */
  lemma AsciiOnlyChar(c: char)
    ensures AsciiOnly([c]) == if IsAsciiChar(c) then [c] else []
  {
    assert [c][1..] == [];
  }

  /** ASCII text passes through unchanged. */
  lemma {:induction false} AsciiOnlyKeepsAscii(s: string)
    requires IsAscii(s)
    ensures AsciiOnly(s) == s
    decreases |s|
  {
    if s != [] {
      AsciiOnlyKeepsAscii(s[1..]);
      assert [s[0]] + s[1..] == s;
    }
  }

  /** Filtering twice is filtering once. */
  lemma AsciiOnlyIdempotent(s: string)
    ensures AsciiOnly(AsciiOnly(s)) == AsciiOnly(s)
  {
    AsciiOnlyKeepsAscii(AsciiOnly(s));
  }

  lemma AsciiAppend(a: string, b: string)
    requires IsAscii(a) && IsAscii(b)
    ensures IsAscii(a + b)
  {
    forall i | 0 <= i < |a + b|
      ensures IsAsciiChar((a + b)[i])
    {
      if i >= |a| {
        assert (a + b)[i] == b[i - |a|];
      }
    }
  }

  /**
   * The message `send_simple_email` hands to the relay, or None when the
   * configuration is incomplete and it returns before building one.
   */
  function ComposeMessage(config: EmailConfig, subject: string, body: string): (m: Option<string>)
    ensures m.Some? <==> IsConfigured(config)
    ensures m.Some? && IsAscii(config.senderEmail.value) && IsAscii(config.recipient.value) ==> IsAscii(m.value)
  {
    if !IsConfigured(config) then None
    else
      var sender, recipient := config.senderEmail.value, config.recipient.value;
      var m := "From: " + sender + "\nTo: " + recipient + "\nSubject: " + AsciiOnly(subject) +
        "\n\n" + AsciiOnly(body) + "\n";
      if IsAscii(sender) && IsAscii(recipient) then
        AsciiAppend("From: ", sender);
        AsciiAppend("From: " + sender, "\nTo: ");
        AsciiAppend("From: " + sender + "\nTo: ", recipient);
        AsciiAppend("From: " + sender + "\nTo: " + recipient, "\nSubject: ");
        AsciiAppend("From: " + sender + "\nTo: " + recipient + "\nSubject: ", AsciiOnly(subject));
        AsciiAppend("From: " + sender + "\nTo: " + recipient + "\nSubject: " + AsciiOnly(subject), "\n\n");
        AsciiAppend("From: " + sender + "\nTo: " + recipient + "\nSubject: " + AsciiOnly(subject) + "\n\n",
          AsciiOnly(body));
        AsciiAppend("From: " + sender + "\nTo: " + recipient + "\nSubject: " + AsciiOnly(subject) + "\n\n" +
          AsciiOnly(body), "\n");
        Some(m)
      else
        Some(m)
  }

  /** With ASCII subject and body, the message carries both verbatim. */
  lemma ComposeKeepsAsciiText(config: EmailConfig, subject: string, body: string)
    requires IsConfigured(config) && IsAscii(subject) && IsAscii(body)
    ensures ComposeMessage(config, subject, body) ==
      Some("From: " + config.senderEmail.value + "\nTo: " + config.recipient.value +
        "\nSubject: " + subject + "\n\n" + body + "\n")
  {
    AsciiOnlyKeepsAscii(subject);
    AsciiOnlyKeepsAscii(body);
  }

  /**
   * The message depends on the subject and body only through their ASCII
   * characters: filtering them first changes nothing.
   */
  lemma ComposeFiltersFirst(config: EmailConfig, subject: string, body: string)
    ensures ComposeMessage(config, subject, body) ==
      ComposeMessage(config, AsciiOnly(subject), AsciiOnly(body))
  {
    AsciiOnlyIdempotent(subject);
    AsciiOnlyIdempotent(body);
  }

  /**
   * The result of `send_simple_email`; `delivered` stands for the SMTP
   * connect, STARTTLS, login and sendmail sequence completing without an
   * exception. An incomplete configuration gives false without any SMTP step.
   */
  function SendSimpleEmail(config: EmailConfig, subject: string, body: string, delivered: bool): (sent: bool)
    ensures sent <==> IsConfigured(config) && delivered
  {
    match ComposeMessage(config, subject, body)
    case None => false
    case Some(_) => delivered
  }
}

=== FILE: optional.dfy ===
/** A value that may be absent: a key missing from a Python dict, an unset environment variable. */
module Optional {

  datatype Option<+T> = None | Some(value: T) {

    /** `d.get(key, default)`: the value when present, `default` otherwise. */
    function GetOr(default: T): T {
      match this
      case Some(v) => v
      case None => default
    }
  }
}

=== FILE: text.dfy ===
/**
 * The few Python string built-ins the monitor relies on: the substring test
 * `p in s`, `str.lower()` (over ASCII letters) and `str(n)` for a status code.
 */
module Text {

  /** `p` is a prefix of `s`. */
  predicate StartsWith(s: string, p: string) {
    |p| <= |s| && s[..|p|] == p
  }

  /**
   * Python's `p in s`: `p` occurs as a contiguous block of `s`. The empty
   * string occurs in every string, and nothing longer than `s` occurs in it.
   */
  predicate Contains(s: string, p: string): (b: bool)
    ensures p == [] ==> b
    ensures b ==> |p| <= |s|
    decreases |s|
  {
    StartsWith(s, p) || (|s| > 0 && Contains(s[1..], p))
  }

  /** An occurrence at a known offset is an occurrence. */
  lemma {:induction false} ContainsAt(s: string, p: string, i: nat)
    requires i <= |s| && StartsWith(s[i..], p)
    ensures Contains(s, p)
    decreases i
  {
    if i == 0 {
      assert s[0..] == s;
    } else {
      assert s[1..][i - 1..] == s[i..];
      ContainsAt(s[1..], p, i - 1);
    }
  }

  /** Whatever a prefix of `s` contains, `s` contains. */
  lemma {:induction false} PrefixContains(s: string, q: string, p: string)
    requires StartsWith(s, q) && Contains(q, p)
    ensures Contains(s, p)
    decreases |q|
  {
    if StartsWith(q, p) {
      assert s[..|p|] == s[..|q|][..|p|];
    } else {
      assert s[1..][..|q| - 1] == s[..|q|][1..];
      PrefixContains(s[1..], q[1..], p);
    }
  }

  /** `Contains` is exactly "occurs at some offset". */
  lemma {:induction false} ContainsOccurs(s: string, p: string)
    ensures Contains(s, p) <==> exists i :: 0 <= i <= |s| && StartsWith(s[i..], p)
    decreases |s|
  {
    if Contains(s, p) {
      if StartsWith(s, p) {
        assert s[0..] == s;
        assert StartsWith(s[0..], p);
      } else {
        ContainsOccurs(s[1..], p);
        var j :| 0 <= j <= |s[1..]| && StartsWith(s[1..][j..], p);
        assert s[1..][j..] == s[j + 1..];
        assert StartsWith(s[j + 1..], p);
      }
    }
    if exists i :: 0 <= i <= |s| && StartsWith(s[i..], p) {
      var i :| 0 <= i <= |s| && StartsWith(s[i..], p);
      ContainsAt(s, p, i);
    }
  }

  /** Substring containment is transitive. */
  lemma {:induction false} ContainsTransitive(s: string, q: string, p: string)
    requires Contains(s, q) && Contains(q, p)
    ensures Contains(s, p)
    decreases |s|
  {
    if StartsWith(s, q) {
      PrefixContains(s, q, p);
    } else {
      ContainsTransitive(s[1..], q, p);
    }
  }

  /** `str.lower()` on one character, for the ASCII letters. */
  function LowerChar(c: char): char {
    if 'A' <= c <= 'Z' then (c as int + 32) as char else c
  }

  /**
   * `str.lower()`, letter by letter: same length, no capital letter left, and
   * every character that is not a capital letter kept in its place.
   */
  function Lower(s: string): (r: string)
    ensures |r| == |s|
    ensures forall i :: 0 <= i < |r| ==> !('A' <= r[i] <= 'Z')
    ensures forall i :: 0 <= i < |s| && !('A' <= s[i] <= 'Z') ==> r[i] == s[i]
    ensures forall i :: 0 <= i < |s| && 'A' <= s[i] <= 'Z' ==>
      'a' <= r[i] <= 'z' && r[i] as int - 'a' as int == s[i] as int - 'A' as int
  {
    seq(|s|, i requires 0 <= i < |s| => LowerChar(s[i]))
  }

  /** Lowering is idempotent: a lowered page lowers to itself. */
  lemma LowerIdempotent(s: string)
    ensures Lower(Lower(s)) == Lower(s)
  {
  }

  /** Lowering both sides keeps an occurrence: keyword tests on lowered text are case-insensitive. */
  lemma {:induction false} ContainsLower(s: string, p: string)
    requires Contains(s, p)
    ensures Contains(Lower(s), Lower(p))
    decreases |s|
  {
    if StartsWith(s, p) {
      assert Lower(s)[..|p|] == Lower(p);
    } else {
      ContainsLower(s[1..], p);
      assert Lower(s)[1..] == Lower(s[1..]);
    }
  }

  predicate IsDigit(c: char) {
    '0' <= c <= '9'
  }

  predicate AllDigits(s: string) {
    forall i :: 0 <= i < |s| ==> IsDigit(s[i])
  }

  function Digit(d: nat): char
    requires d < 10
  {
    ('0' as int + d) as char
  }

  /** `str(n)` for a non-negative integer: its decimal digits, no sign, no leading zero. */
  function NatToString(n: nat): (r: string)
    ensures |r| > 0 && AllDigits(r)
    ensures |r| > 1 ==> r[0] != '0'
    decreases n
  {
    if n < 10 then [Digit(n)] else NatToString(n / 10) + [Digit(n % 10)]
  }

  /** The number a string of decimal digits denotes (the inverse of `NatToString`). */
  function DigitsValue(s: string): nat
    requires AllDigits(s)
    decreases |s|
  {
    if s == [] then 0 else DigitsValue(s[..|s| - 1]) * 10 + (s[|s| - 1] as int - '0' as int)
  }

  lemma {:induction false} DigitsValueOfNatToString(n: nat)
    ensures DigitsValue(NatToString(n)) == n
    decreases n
  {
    if n >= 10 {
      var s := NatToString(n / 10);
      assert (s + [Digit(n % 10)])[..|s|] == s;
      DigitsValueOfNatToString(n / 10);
    }
  }

  /** Two codes print the same only if they are the same code. */
  lemma NatToStringInjective(a: nat, b: nat)
    requires NatToString(a) == NatToString(b)
    ensures a == b
  {
    DigitsValueOfNatToString(a);
    DigitsValueOfNatToString(b);
  }
}

=== FILE: whois.dfy ===
/** `check_whois_status`: the whois.net page reduced to a lifecycle status record. */
module Whois {
  import opened Optional
  import opened Text
  import opened Http

  const PendingDelete := "pendingDelete"
  const RedemptionPeriod := "redemptionPeriod"
  const Expired := "expired"
  const Active := "active"
  const Unknown := "unknown"

  /** The `source` field of every successful record. */
  const Source := "whois.net"

  /** The dict the checker returns: `{status, checked_at, source}` or `{error}`. */
  datatype WhoisResult =
    | Record(status: string, checkedAt: string, source: string)
    | Failure(error: string)
  {
    /** `result.get('status')`: present exactly in a record, absent from an error dict. */
    function Status(): (r: Option<string>)
      ensures r.Some? <==> Record?
      ensures r.Some? ==> r.value == status
    {
      if Record? then Some(status) else None
    }
  }

  /** The five lifecycle labels. */
  predicate IsWhoisLabel(r: string) {
    r == PendingDelete || r == RedemptionPeriod || r == Expired || r == Active || r == Unknown
  }

  /** The keyword rules, first match wins; `content` is the already lowered page. */
  function ClassifyPage(content: string): (r: string)
    ensures IsWhoisLabel(r)
  {
    if Contains(content, "pendingdelete") || Contains(content, "pending delete") then
      PendingDelete
    else if Contains(content, "redemption") then
      RedemptionPeriod
    else if Contains(content, "expired") then
      Expired
    else if Contains(content, "active") then
      Active
    else
      Unknown
  }

  /**
   * The whole checker; `checkedAt` stands for the clock reading it stamps on
   * a record. It never fails: a failure is a record with only an error.
   */
  function CheckWhois(reply: Reply, checkedAt: string): (r: WhoisResult)
    ensures r.Record? <==> IsOk(reply)
    ensures r.Status().Some? <==> IsOk(reply)
    ensures r.Record? ==> IsWhoisLabel(r.status) && r.source == "whois.net" && r.checkedAt == checkedAt
    ensures reply.Response? && reply.statusCode != 200 ==> r == Failure("HTTP " + NatToString(reply.statusCode))
    ensures reply.Raised? ==> r == Failure(reply.message)
  {
    match reply
    case Response(code, text) =>
      if code == 200 then Record(ClassifyPage(Lower(text)), checkedAt, Source)
      else Failure("HTTP " + NatToString(code))
    case Raised(message) =>
      Failure(message)
  }

  /**
   * Each label, exactly when it is given, in the order
   * pendingDelete > redemptionPeriod > expired > active > unknown.
   */
  lemma ClassifyPagePrecedence(content: string)
    ensures ClassifyPage(content) == PendingDelete <==>
      Contains(content, "pendingdelete") || Contains(content, "pending delete")
    ensures ClassifyPage(content) == RedemptionPeriod <==>
      !Contains(content, "pendingdelete") && !Contains(content, "pending delete") &&
      Contains(content, "redemption")
    ensures ClassifyPage(content) == Expired <==>
      !Contains(content, "pendingdelete") && !Contains(content, "pending delete") &&
      !Contains(content, "redemption") && Contains(content, "expired")
    ensures ClassifyPage(content) == Active <==>
      !Contains(content, "pendingdelete") && !Contains(content, "pending delete") &&
      !Contains(content, "redemption") && !Contains(content, "expired") &&
      Contains(content, "active")
    ensures ClassifyPage(content) == Unknown <==>
      !Contains(content, "pendingdelete") && !Contains(content, "pending delete") &&
      !Contains(content, "redemption") && !Contains(content, "expired") &&
      !Contains(content, "active")
  {
  }

  /**
   * A page showing "pendingDelete" or "pending delete" in any letter case (the
   * EPP spelling "pendingDelete" among them) has status pendingDelete,
   * whatever else it says.
   */
  lemma PendingDeleteAnyCase(text: string, shown: string, checkedAt: string)
    requires Contains(text, shown)
    requires Lower(shown) == "pendingdelete" || Lower(shown) == "pending delete"
    ensures CheckWhois(Response(200, text), checkedAt).Status() == Some(PendingDelete)
  {
    ContainsLower(text, shown);
  }
}
